=== FILE: README.md ===
# UfiSpace S9700-53DX transceiver EEPROM and beacon LED, modelled in Dafny

This project models two parts of the board-support package of the UfiSpace S9700-53DX
switch.

The first part is the transceiver EEPROM reader in `bsp/eeprom/eeprom.py`:
- how a front-panel QSFP or QSFP-DD port number becomes an I2C mux channel;
- the register tables (SFF-8436 for QSFP, and CMIS revisions "20" and "30" for QSFP-DD);
- how the QSFP-DD revision byte chooses a table and builds its "x.y" label;
- the page cache that reads each 128-byte block once;
- how `get_qsfp_info` and `get_qsfpdd_info` decode temperature, voltage, vendor name,
  serial number and the per-channel power and bias readings.

The second part is the two-digit seven-segment beacon in `bsp/led/beacon_led.py`.

One Dafny module per concern, one file each:

| module | file | concern |
|---|---|---|
| `Common` | common.dfy | `Option`, bytes, `Min`, no-duplicates |
| `Numeric` | numeric.dfy | powers of two, Python truncating `int(a / d)`, `&`, two's complement |
| `Hex` | hex.dfy | hex digits, `int(c, 16)`, `'{:02x}'` formatting |
| `Text` | text.dfy | Python string ordering, `isspace`, `strip` |
| `Addressing` | addressing.dfy | front-panel to physical port, QSFP and QSFP-DD bus selection |
| `RegisterMap` | register_map.dfy | register tables, revision dispatch and label |
| `PageCache` | page_cache.dfy | block reads and the fetch-once page cache |
| `FieldDecode` | field_decode.dfy | word, byte and ASCII reads from a block; unit conversions |
| `ModuleDecode` | module_decode.dfy | `get_qsfp_info`, `get_qsfpdd_info` end to end |
| `Beacon` | beacon.dfy | segment tables and `set_beacon_num` |

Modelling choices:
- The mux lookup `I2CMux.MUXs[mux].chnl_bus[ch]` is represented by the pair `Bus(mux, ch)`.
- The sysfs tree is a map `Devices` from a bus to the bytes of the `eeprom` file
  registered there. A bus outside the map has no such file.
- The board identifier and the constants `BID.NCP1_1_PROTO`, `BID.BUILD_REV_MASK` and
  `BID.NCP1_1_ALPHA` are parameters (`BoardIds`), because their values are not part of
  this model.
- The `dd | base64` / `hexdump` pipeline becomes slicing. Block `p` is
  `e[128 p .. min(128 (p + 1), |e|)]`.
- hexdump's `-e` format is `count/1 "%conv"`: `count` units of one byte each. So a word
  (`2/1 "%02x"`) prints its two bytes in file order, and its hex value is the big-endian
  word; a text field (`16/1 "%c"`) prints one character per byte.
- A word is available only when both of its bytes lie in the block;
  otherwise the model treats the word as missing and that slot becomes "n/a"
  (`NotAvailable`).
- The page cache carries a ghost log of the blocks read. The fetch-once properties are
  stated about that log.
- Python floats are exact `real`s.
- Python's `int(x / d)` truncates toward zero, so it is written out explicitly (`TruncDiv`).
  Python's `%` by a positive divisor agrees with Dafny's.
- `sys.exit` for an unknown board is the outcome `InvalidBoard`. A missing sysfs path is
  `NotRegistered`: the code logs and returns `None`.
- The revision byte is rendered with `"02x"`, which is lower-case.
- The beacon's IO expander is represented by the list of calls made to it.

## Model

| member | source | states |
|---|---|---|
| Numeric.TwosComp | platform/broadcom/sonic-platform-modules-ufispace/s9700-53dx/bsp/eeprom/eeprom.py:294-298 | for 0 <= v < 2^bits: the result is v exactly when bit bits-1 is clear and v - 2^bits exactly when it is set, lies in [-2^(bits-1), 2^(bits-1)), and adding 2^bits back to a negative result recovers v |
| Numeric.TopBit | platform/broadcom/sonic-platform-modules-ufispace/s9700-53dx/bsp/eeprom/eeprom.py:296 | for v < 2^bits, bit bits-1 (`BitSet`) is set exactly when v >= 2^(bits-1) |
| Numeric.BitAndPow2 | platform/broadcom/sonic-platform-modules-ufispace/s9700-53dx/bsp/eeprom/eeprom.py:296 | the source's test `v & (1 << k) != 0`, with `&` as `BitAnd`, holds exactly when bit k is set (`BitSet`), so `TwosComp` decides the sign as the source does |
| Numeric.TruncDiv | platform/broadcom/sonic-platform-modules-ufispace/s9700-53dx/bsp/eeprom/eeprom.py:120 | `int(a / d)` rounds toward zero: q*d lies between 0 and a, within one d of it, for either sign of a |
| Numeric.BitAndBounded | platform/broadcom/sonic-platform-modules-ufispace/s9700-53dx/bsp/eeprom/eeprom.py:150 | `id & mask` is at most both id and mask |
| Hex.Format02 | platform/broadcom/sonic-platform-modules-ufispace/s9700-53dx/bsp/eeprom/eeprom.py:93 | the rendering is at least two characters, starts with '-' exactly for negative numbers, and is all hex digits otherwise |
| Hex.Format02RoundTrip | platform/broadcom/sonic-platform-modules-ufispace/s9700-53dx/bsp/led/beacon_led.py:62 | `ParseSigned` models `int(_, 16)` on a rendering (an optional '-' then hex digits); parsing the `'{:02x}'` rendering gives the number back |
| Hex.Format02Byte | platform/broadcom/sonic-platform-modules-ufispace/s9700-53dx/bsp/eeprom/eeprom.py:93 | a byte renders as exactly its two lower-case hex digits, high nibble first |
| Hex.Format02Wide | platform/broadcom/sonic-platform-modules-ufispace/s9700-53dx/bsp/led/beacon_led.py:62 | from 256 on the rendering has three or more digits, and its first two digits spell n / 16^(k-2), a value in 16..255 |
| Hex.HexCharRoundTrip | platform/broadcom/sonic-platform-modules-ufispace/s9700-53dx/bsp/led/beacon_led.py:66-67 | `int(c, 16)` of the digit for d is d |
| Hex.DigitValue | platform/broadcom/sonic-platform-modules-ufispace/s9700-53dx/bsp/led/beacon_led.py:66-67 | on ASCII characters, `int(c, 16)` succeeds exactly on hex digits and yields a value below 16 |
| Hex.HexDigitsRoundTrip | platform/broadcom/sonic-platform-modules-ufispace/s9700-53dx/bsp/eeprom/eeprom.py:93 | reading the hex digits of n back gives n |
| Hex.HexDigitsLength | platform/broadcom/sonic-platform-modules-ufispace/s9700-53dx/bsp/eeprom/eeprom.py:93 | no leading zero; two digits for 16..255; three or more exactly from 256 |
| Hex.LeadingPair | platform/broadcom/sonic-platform-modules-ufispace/s9700-53dx/bsp/led/beacon_led.py:66-67 | the first two digits of a hex string are its value divided by 16^(k-2) |
| Text.LessIsLexicographic | platform/broadcom/sonic-platform-modules-ufispace/s9700-53dx/bsp/eeprom/eeprom.py:465-468 | the string `>` used for the revision is Python's order: at the first difference the smaller character wins, else the shorter string |
| Text.Strip | platform/broadcom/sonic-platform-modules-ufispace/s9700-53dx/bsp/eeprom/eeprom.py:416-419 | the result is the input with all leading and trailing whitespace removed: a contiguous piece, only whitespace around it, none at its ends, empty exactly when the input is all whitespace |
| Text.StripBoth | platform/broadcom/sonic-platform-modules-ufispace/s9700-53dx/bsp/eeprom/eeprom.py:416-419 | stripping the end of what stripping the start left gives a contiguous piece of the input with only whitespace after it, empty exactly when the input is all whitespace |
| Text.StripUnique | platform/broadcom/sonic-platform-modules-ufispace/s9700-53dx/bsp/eeprom/eeprom.py:416-419 | any non-empty contiguous piece of the input with whitespace-only surroundings and non-whitespace ends is the result of strip |
| Addressing.FrontPanelToPhy | platform/broadcom/sonic-platform-modules-ufispace/s9700-53dx/bsp/eeprom/eeprom.py:107-116 | identity on 0..19; above 19 moves to the other port of the same pair, never itself; the pair (p / 2) is unchanged |
| Addressing.FrontPanelInvolution | platform/broadcom/sonic-platform-modules-ufispace/s9700-53dx/bsp/eeprom/eeprom.py:107-116 | applying the remap twice gives every port number back |
| Addressing.QsfpBus | platform/broadcom/sonic-platform-modules-ufispace/s9700-53dx/bsp/eeprom/eeprom.py:118-134 | the channel is phy % 8, in 0..7; the mux is QSFP0..QSFP3 for phy in 0..7, 8..15, 16..23, 24..31 and QSFP4 for every phy from 32; because `int(phy / 8)` truncates toward zero, -7..-1 also pick QSFP0 and -8 and below pick QSFP4 |
| Addressing.QsfpBusBijection | platform/broadcom/sonic-platform-modules-ufispace/s9700-53dx/bsp/eeprom/eeprom.py:118-134 | ports 0..39 and the 40 (QSFP mux, channel) pairs correspond one to one |
| Addressing.QsfpBusInjective | platform/broadcom/sonic-platform-modules-ufispace/s9700-53dx/bsp/eeprom/eeprom.py:118-134 | two ports in 0..39 never share a bus |
| Addressing.MuxNamesDistinct | platform/broadcom/sonic-platform-modules-ufispace/s9700-53dx/bsp/eeprom/eeprom.py:118-161 | each multiplexer has its own `"9548_CHILD_..."` key, so a `Bus` names exactly one `MUXs[mux].chnl_bus[ch]` |
| Addressing.QsfpddBus | platform/broadcom/sonic-platform-modules-ufispace/s9700-53dx/bsp/eeprom/eeprom.py:136-161 | a bus exists exactly on the proto board or when id & mask >= alpha; the channel is port % 8; proto picks the mux by int(port / 4) (board, QSFPDD0, QSFPDD1), otherwise by int(port / 8) (QSFPDD0, QSFPDD1) |
| Addressing.QsfpddBusRoundTrip | platform/broadcom/sonic-platform-modules-ufispace/s9700-53dx/bsp/eeprom/eeprom.py:136-161 | on either wiring, ports 0..15 are recovered from their bus |
| Addressing.ProtoChannelQuirk | platform/broadcom/sonic-platform-modules-ufispace/s9700-53dx/bsp/eeprom/eeprom.py:137-148 | on the proto board ports 4..7 use QSFPDD0 channels 4..7, and a port from 16 shares the bus of port - 8 |
| Addressing.OnlyProtoBelowAlpha | platform/broadcom/sonic-platform-modules-ufispace/s9700-53dx/bsp/eeprom/eeprom.py:136-161 | when mask < alpha only the proto board has a wiring |
| RegisterMap.Sff8436 | platform/broadcom/sonic-platform-modules-ufispace/s9700-53dx/bsp/eeprom/eeprom.py:55-66 | the QSFP table fits its 5-page, 4-channel family, has no revision or TX power entry, and names pages 0 and 1 |
| RegisterMap.CmisTable | platform/broadcom/sonic-platform-modules-ufispace/s9700-53dx/bsp/eeprom/eeprom.py:68-91 | both QSFP-DD tables fit the 257-page, 8-channel family, keep the revision at page 0 byte 1, have TX power, and name pages {0, 1} (2.0) or {0, 1, 18} (3.0) |
| RegisterMap.FieldsFit | platform/broadcom/sonic-platform-modules-ufispace/s9700-53dx/bsp/eeprom/eeprom.py:55-91 | every field of a well-formed table lies on a page the table names, below the page count, and inside one 128-byte block |
| RegisterMap.ItemsLayout | platform/broadcom/sonic-platform-modules-ufispace/s9700-53dx/bsp/eeprom/eeprom.py:55-91 | the table's entries are listed in the dictionary's order |
| RegisterMap.SelectCmisNumeric | platform/broadcom/sonic-platform-modules-ufispace/s9700-53dx/bsp/eeprom/eeprom.py:462-468 | `SelectCmis` models the compare `raw_rev > "20"` and its choice of table; for a byte rendered with `"02x"` it picks the 3.0 table exactly when the byte exceeds 0x20, and an empty rendering picks 2.0 |
| RegisterMap.RevisionLabel | platform/broadcom/sonic-platform-modules-ufispace/s9700-53dx/bsp/eeprom/eeprom.py:491 | the label is one longer than the raw revision, has '.' after its first character, and removing that dot gives the raw revision |
| RegisterMap.RevisionLabelOfByte | platform/broadcom/sonic-platform-modules-ufispace/s9700-53dx/bsp/eeprom/eeprom.py:491 | a byte's label is its high digit, '.', its low digit |
| PageCache.ReadBlock | platform/broadcom/sonic-platform-modules-ufispace/s9700-53dx/bsp/eeprom/eeprom.py:268-271 | block p is the 128 bytes from 128 p, cut short at the end of the file |
| PageCache.OpenCache | platform/broadcom/sonic-platform-modules-ufispace/s9700-53dx/bsp/eeprom/eeprom.py:373-382 | the cache has one slot per page; only page 0 is fetched, and it is the first read |
| PageCache.FetchTablePages | platform/broadcom/sonic-platform-modules-ufispace/s9700-53dx/bsp/eeprom/eeprom.py:386-390 | after the loop every table page is cached with the right contents, no page is read twice, earlier reads are kept, and no other page is read |
| FieldDecode.BlockWord | platform/broadcom/sonic-platform-modules-ufispace/s9700-53dx/bsp/eeprom/eeprom.py:278-284 | `ReadWords` models `_read_page_word`: channel i is `BlockWord` at offset + 2i; a word exists exactly when both its bytes are in the block, and it is big-endian |
| FieldDecode.ReadAscii | platform/broadcom/sonic-platform-modules-ufispace/s9700-53dx/bsp/eeprom/eeprom.py:286-292 | the text is the block's bytes from the offset, cut at the length or the block's end |
| FieldDecode.HexdumpWordBigEndian | platform/broadcom/sonic-platform-modules-ufispace/s9700-53dx/bsp/eeprom/eeprom.py:278-284 | with the format `2/1 "%02x"` (`HexdumpHex`) a word prints high byte first, so `int(_, 16)` of the text is the big-endian word `BlockWord` reads |
| FieldDecode.HexdumpCharsIsReadAscii | platform/broadcom/sonic-platform-modules-ufispace/s9700-53dx/bsp/eeprom/eeprom.py:286-292 | the per-byte `%c` output of `length/1 "%c"` (`HexdumpChars`) is exactly the slice `ReadAscii` takes |
| FieldDecode.Temperature | platform/broadcom/sonic-platform-modules-ufispace/s9700-53dx/bsp/eeprom/eeprom.py:403-407 | a missing word gives "n/a"; otherwise the reading is exactly the two's complement of the raw word divided by 256, lies in [-128, 128), and scaling back and wrapping negatives recovers the raw word |
| FieldDecode.Tenthousandths | platform/broadcom/sonic-platform-modules-ufispace/s9700-53dx/bsp/eeprom/eeprom.py:409-426 | a missing word gives "n/a"; otherwise the reading is exactly the raw word divided by 10000, in [0, 6.5535] |
| FieldDecode.Bias | platform/broadcom/sonic-platform-modules-ufispace/s9700-53dx/bsp/eeprom/eeprom.py:428-432 | a missing word gives "n/a"; otherwise the reading is exactly the raw word times 0.002 (the raw word divided by 500), in [0, 131.07] |
| ModuleDecode.WordFromBlock | platform/broadcom/sonic-platform-modules-ufispace/s9700-53dx/bsp/eeprom/eeprom.py:278-284 | a word read from a fetched block is the word at that address of the file |
| ModuleDecode.AsciiFromBlock | platform/broadcom/sonic-platform-modules-ufispace/s9700-53dx/bsp/eeprom/eeprom.py:286-292 | text read from a fetched block is the text at that address of the file |
| ModuleDecode.ChannelsFromBlock | platform/broadcom/sonic-platform-modules-ufispace/s9700-53dx/bsp/eeprom/eeprom.py:421-432 | each channel of a list is the converted word at offset + 2i, each slot on its own |
| ModuleDecode.DecodeFromCache | platform/broadcom/sonic-platform-modules-ufispace/s9700-53dx/bsp/eeprom/eeprom.py:392-432 | `DecodePages` models the field decode of both functions; decoding the cached pages gives every field as the device holds it at that field's address |
| ModuleDecode.RevisionFromCache | platform/broadcom/sonic-platform-modules-ufispace/s9700-53dx/bsp/eeprom/eeprom.py:462 | `ReadByteHex` models `_read_page_byte` with `"02x"`; the revision it reads from cached page 0 is the rendering of byte 1 of the file, or empty when the file is shorter |
| ModuleDecode.GetQsfpInfo | platform/broadcom/sonic-platform-modules-ufispace/s9700-53dx/bsp/eeprom/eeprom.py:369-445 | no registered EEPROM: nothing is read and no result; otherwise page 0 and then each SFF-8436 page is read once, nothing else, and every field describes the device |
| ModuleDecode.GetQsfpddInfo | platform/broadcom/sonic-platform-modules-ufispace/s9700-53dx/bsp/eeprom/eeprom.py:447-543 | unknown board: no result and nothing read; no registered EEPROM: nothing read and no result; otherwise the revision byte picks the table and label, its pages are read once each, and every field describes the device |
| Beacon.TablesWellFormed | platform/broadcom/sonic-platform-modules-ufispace/s9700-53dx/bsp/led/beacon_led.py:22-53 | both tables have 16 entries of seven 0/1 segments |
| Beacon.SetBeaconNum | platform/broadcom/sonic-platform-modules-ufispace/s9700-53dx/bsp/led/beacon_led.py:60-72 | a negative number raises and never drives the display; otherwise the display is driven exactly once |
| Beacon.ByteShowsBothDigits | platform/broadcom/sonic-platform-modules-ufispace/s9700-53dx/bsp/led/beacon_led.py:62-69 | for 0..255 the display is driven with SEG7_L[n / 16] and SEG7_R[n % 16] |
| Beacon.WideNumberShowsLeadingDigits | platform/broadcom/sonic-platform-modules-ufispace/s9700-53dx/bsp/led/beacon_led.py:62-69 | from 256 on only the two leading hex digits are shown (256 shows 1 and 0) |
| Beacon.DigitsReadBack | platform/broadcom/sonic-platform-modules-ufispace/s9700-53dx/bsp/led/beacon_led.py:22-53 | each pattern reads back as its own index |
| Beacon.PatternsDistinct | platform/broadcom/sonic-platform-modules-ufispace/s9700-53dx/bsp/led/beacon_led.py:22-53 | within each table the 16 patterns are pairwise distinct |
| Beacon.DisplayRoundTrip | platform/broadcom/sonic-platform-modules-ufispace/s9700-53dx/bsp/led/beacon_led.py:62-69 | for 0..255 the displayed pair reads back as the number set |
| Beacon.BeaconInjective | platform/broadcom/sonic-platform-modules-ufispace/s9700-53dx/bsp/led/beacon_led.py:62-69 | distinct numbers in 0..255 drive distinct pattern pairs |

## Left out

- The `dd` / `base64` / `hexdump` subprocess pipeline and its text output are not modelled;
  slicing stands in for them.
- A half word at the end of a short file: hexdump prints the one byte present and
  `int(_, 16)` parses it, but the model treats the word as missing.
- Python's `int(c, 16)` also accepts non-ASCII decimal digits; the model's digit parser
  accepts only ASCII hex digits, which is all `'{:02x}'` produces.
- A non-ASCII EEPROM byte read as text: the model maps byte b to the character with code b,
  whereas `subprocess.getoutput` decodes the output as UTF-8.
- The exception branch of `_read_page_ascii` (the "n/a" text) is not modelled, because a
  slice never fails.
- Sysfs registration and lookup are not modelled: `_create_eeprom_sysfs`, `init`,
  `get_eeprom_sysfs`, `get_bus_path`, `dump_sysfs` and the `SysfsUtility` path lookup
  (not part of this model). They are replaced by the `Devices` map.
- `dump_cpu_eeprom`, `dump_qsfp_eeprom` and `dump_qsfpdd_eeprom` are raw file dumps, which
  are I/O.
- Logging and the catch-log-reraise wrappers are not modelled. An exception that escapes is a
  flag, and only where the caller can see it (the beacon).
- The real values of `I2CMux` channel buses and of the `BID` constants are not part of this
  model. They are abstract parameters.
- Python float rounding of `/256`, `/10000` and `*0.002` is left out; results are exact
  reals.
- `int(port / 8)` loses precision for ports beyond 2^53 in Python; the model divides
  exactly.
- Addressing.QsfpBusBijection and Addressing.QsfpddBusRoundTrip are stated for ports
  0..39 and 0..15. These are the largest ranges on which each map is one to one. There are
  only 40 QSFP buses. From port 16 a QSFP-DD port shares the bus of port - 8
  (`Addressing.ProtoChannelQuirk`). The port comments in the source name 0..39 for QSFP
  and 0..12 for QSFP-DD. Neither restriction weakens a promise, because neither property
  holds beyond its range. The maximum port constants are not part of this model.
- The `IOExpander.set_beacon_led` call itself, and `init` / `deinit` of the beacon, which do
  nothing, are not modelled.

=== FILE: addressing.dfy ===
/** Which I2C multiplexer and channel serve a transceiver port (`_qsfp_port_fp2phy`,
    `_get_qsfp_bus_num`, `_get_qsfpdd_bus_num`). The multiplexer table itself belongs to
    the I2C mux driver, which is not part of this model: a lookup of
    `MUXs[mux].chnl_bus[ch]` is represented by the pair `Bus(mux, ch)` it is keyed by. */
module Addressing {
  import opened Common
  import opened Numeric

  /** The PCA9548 child multiplexers the transceiver EEPROMs hang off. */
  datatype Mux = Qsfp0 | Qsfp1 | Qsfp2 | Qsfp3 | Qsfp4 | QsfpddBoard | Qsfpdd0 | Qsfpdd1

  /** The key `I2CMux.MUXs` is indexed with for each multiplexer. */
  function MuxName(m: Mux): string {
    match m
    case Qsfp0 => "9548_CHILD_QSFP0"
    case Qsfp1 => "9548_CHILD_QSFP1"
    case Qsfp2 => "9548_CHILD_QSFP2"
    case Qsfp3 => "9548_CHILD_QSFP3"
    case Qsfp4 => "9548_CHILD_QSFP4"
    case QsfpddBoard => "9548_CHILD_QSFPDDBOARD"
    case Qsfpdd0 => "9548_CHILD_QSFPDD0"
    case Qsfpdd1 => "9548_CHILD_QSFPDD1"
  }

  /** Each multiplexer has its own key, so a `Bus` names one `MUXs[mux].chnl_bus[ch]`. */
  lemma MuxNamesDistinct(m: Mux, n: Mux)
    ensures MuxName(m) == MuxName(n) <==> m == n
  {
  }

  /** A multiplexer channel: what `MUXs[mux].chnl_bus[channel]` is looked up by. */
  datatype Bus = Bus(mux: Mux, channel: int)

  /** The board-ID constants the QSFP-DD wiring depends on (`BID.NCP1_1_PROTO`,
      `BID.BUILD_REV_MASK`, `BID.NCP1_1_ALPHA`); their values are defined elsewhere. */
  datatype BoardIds = BoardIds(proto: int, buildRevMask: nat, alpha: int)

  /** `_qsfp_port_fp2phy`: front-panel ports 0..19 are wired straight through; above that
      the two ports of each even/odd pair are swapped. The result always stays in the
      same aligned pair `{2k, 2k + 1}`. */
  function FrontPanelToPhy(fp: int): (phy: int)
    ensures phy / 2 == fp / 2
    ensures 0 <= fp <= 19 ==> phy == fp
    ensures fp > 19 ==> phy != fp && phy > 19
  {
    if 0 <= fp <= 19 then fp
    else if fp % 2 == 0 then fp + 1
    else fp - 1
  }

  /** Applying the remapping twice gives the port back, for every integer. */
  lemma FrontPanelInvolution(fp: int)
    ensures FrontPanelToPhy(FrontPanelToPhy(fp)) == fp
  {
  }

  function QsfpMux(group: int): Mux {
    if group == 0 then Qsfp0
    else if group == 1 then Qsfp1
    else if group == 2 then Qsfp2
    else if group == 3 then Qsfp3
    else Qsfp4
  }

  /** `_get_qsfp_bus_num`: the physical port's group of eight picks QSFP0..QSFP3, `int(phy / 8)`
      truncates toward zero, so -7..-1 also land on QSFP0, while 32 and up and -8 and below
      fall through to QSFP4; the channel is
      the physical port modulo 8. */
  function QsfpBus(port: int): (b: Bus)
    ensures 0 <= b.channel < 8
    ensures b.channel == FrontPanelToPhy(port) % 8
    ensures -8 < FrontPanelToPhy(port) < 8 ==> b.mux == Qsfp0
    ensures 8 <= FrontPanelToPhy(port) < 16 ==> b.mux == Qsfp1
    ensures 16 <= FrontPanelToPhy(port) < 24 ==> b.mux == Qsfp2
    ensures 24 <= FrontPanelToPhy(port) < 32 ==> b.mux == Qsfp3
    ensures FrontPanelToPhy(port) >= 32 || FrontPanelToPhy(port) <= -8 ==> b.mux == Qsfp4
    ensures b.mux in {Qsfp0, Qsfp1, Qsfp2, Qsfp3, Qsfp4}
  {
    var phy := FrontPanelToPhy(port);
    Bus(QsfpMux(TruncDiv(phy, 8)), phy % 8)
  }

  function QsfpMuxIndex(m: Mux): nat {
    match m
    case Qsfp0 => 0
    case Qsfp1 => 1
    case Qsfp2 => 2
    case Qsfp3 => 3
    case _ => 4
  }

  /** The front-panel port a QSFP bus serves: the inverse of `QsfpBus`. */
  function QsfpPortOf(b: Bus): int {
    FrontPanelToPhy(8 * QsfpMuxIndex(b.mux) + b.channel)
  }

  predicate IsQsfpBus(b: Bus) {
    b.mux in {Qsfp0, Qsfp1, Qsfp2, Qsfp3, Qsfp4} && 0 <= b.channel < 8
  }

  /** Ports 0..39 and the forty QSFP buses are in one-to-one correspondence: each port
      has its own bus, and every QSFP bus serves exactly one of these ports. */
  lemma QsfpBusBijection(port: int, b: Bus)
    ensures 0 <= port < 40 ==> IsQsfpBus(QsfpBus(port)) && QsfpPortOf(QsfpBus(port)) == port
    ensures IsQsfpBus(b) ==> 0 <= QsfpPortOf(b) < 40 && QsfpBus(QsfpPortOf(b)) == b
  {
    if 0 <= port < 40 {
      FrontPanelInvolution(port);
    }
    if IsQsfpBus(b) {
      FrontPanelInvolution(8 * QsfpMuxIndex(b.mux) + b.channel);
    }
  }

  /** Distinct QSFP ports 0..39 never share a bus. */
  lemma QsfpBusInjective(p: int, q: int)
    requires 0 <= p < 40 && 0 <= q < 40
    requires QsfpBus(p) == QsfpBus(q)
    ensures p == q
  {
    QsfpBusBijection(p, QsfpBus(p));
    QsfpBusBijection(q, QsfpBus(q));
  }

  /** `_get_qsfpdd_bus_num`. On the prototype board the port's group of four picks the
      multiplexer, yet the channel is still the port modulo 8; on boards whose build
      revision (`board_id & BUILD_REV_MASK`) is at least ALPHA the group of eight picks
      it. Any other board ID ends the program (`sys.exit`), modelled as no bus. */
  function QsfpddBus(boardId: nat, ids: BoardIds, port: int): (r: Option<Bus>)
    ensures r.Some? <==> boardId == ids.proto || BitAnd(boardId, ids.buildRevMask) >= ids.alpha
    ensures r.Some? ==> r.value.channel == port % 8 && 0 <= r.value.channel < 8
    ensures boardId == ids.proto ==>
              r.value.mux == (if -4 < port < 4 then QsfpddBoard
                              else if 4 <= port < 8 then Qsfpdd0
                              else Qsfpdd1)
    ensures boardId != ids.proto && r.Some? ==>
              r.value.mux == (if -8 < port < 8 then Qsfpdd0 else Qsfpdd1)
  {
    if boardId == ids.proto then
      var group := TruncDiv(port, 4);
      var mux := if group == 0 then QsfpddBoard else if group == 1 then Qsfpdd0 else Qsfpdd1;
      Some(Bus(mux, port % 8))
    else if BitAnd(boardId, ids.buildRevMask) >= ids.alpha then
      var group := TruncDiv(port, 8);
      var mux := if group == 0 then Qsfpdd0 else Qsfpdd1;
      Some(Bus(mux, port % 8))
    else
      None
  }

  /** The port a QSFP-DD bus serves; the same inverse fits both wirings. */
  function QsfpddPortOf(b: Bus): int {
    match b.mux
    case Qsfpdd1 => 8 + b.channel
    case _ => b.channel
  }

  /** On either wiring, ports 0..15 each get their own bus and `QsfpddPortOf` recovers the
      port from it; so the prototype's reuse of `port % 8` inside groups of four causes no
      collision below 16. */
  lemma QsfpddBusRoundTrip(boardId: nat, ids: BoardIds, port: int)
    requires 0 <= port < 16
    requires QsfpddBus(boardId, ids, port).Some?
    ensures QsfpddPortOf(QsfpddBus(boardId, ids, port).value) == port
  {
  }

  /** The prototype wiring's quirk: ports 4..7 sit on QSFPDD0 at channels 4..7, and from
      16 on a port shares its bus with the port eight below it. */
  lemma ProtoChannelQuirk(ids: BoardIds, port: int)
    requires 0 <= ids.proto
    ensures 4 <= port < 8 ==> QsfpddBus(ids.proto, ids, port) == Some(Bus(Qsfpdd0, port))
    ensures port >= 16 ==> QsfpddBus(ids.proto, ids, port) == QsfpddBus(ids.proto, ids, port - 8)
  {
  }

  /** When the mask cannot reach ALPHA, only the prototype board ID yields a bus. */
  lemma OnlyProtoBelowAlpha(boardId: nat, ids: BoardIds, port: int)
    requires ids.buildRevMask < ids.alpha
    ensures QsfpddBus(boardId, ids, port).Some? <==> boardId == ids.proto
  {
    BitAndBounded(boardId, ids.buildRevMask);
  }
}

=== FILE: beacon.dfy ===
/** The two-digit seven-segment beacon (`BEACON_LED.set_beacon_num`). The number is
    rendered with `'{:02x}'`, its first two characters are parsed back as hex digits, and
    each selects a segment pattern; the pair is handed to the IO expander, which is
    represented here by the list of calls made to it. */
module Beacon {
  import opened Common
  import opened Hex

  /** Seven segment drive levels, each 0 or 1. */
  type Pattern = seq<int>

  /** `SEG7_L`: patterns for the left digit, indexed by hex digit. */
  const SegLeft: seq<Pattern> := [
    [0,0,0,0,1,0,0], [0,0,1,1,1,1,1], [1,0,0,0,0,1,0], [0,0,1,0,0,1,0],
    [0,0,1,1,0,0,1], [0,1,1,0,0,0,0], [0,1,0,0,0,0,0], [0,0,1,1,1,0,0],
    [0,0,0,0,0,0,0], [0,0,1,1,0,0,0], [0,0,0,1,0,0,0], [0,1,0,0,0,0,1],
    [1,1,0,0,1,0,0], [0,0,0,0,0,1,1], [1,1,0,0,0,0,0], [1,1,0,1,0,0,0]]

  /** `SEG7_R`: patterns for the right digit, indexed by hex digit. */
  const SegRight: seq<Pattern> := [
    [0,0,0,0,0,0,1], [1,1,0,1,1,0,1], [0,0,1,1,0,0,0], [0,1,0,1,0,0,0],
    [1,1,0,0,1,0,0], [0,1,0,0,0,1,0], [0,0,0,0,0,1,0], [0,1,0,0,1,0,1],
    [0,0,0,0,0,0,0], [0,1,0,0,1,0,0], [0,0,0,0,1,0,0], [1,0,0,0,0,1,0],
    [0,0,1,0,0,1,1], [1,0,0,1,0,0,0], [0,0,1,0,0,1,0], [0,0,1,0,1,1,0]]

  predicate IsPattern(p: Pattern) {
    |p| == 7 && forall k | 0 <= k < 7 :: p[k] == 0 || p[k] == 1
  }

  /** Both tables have an entry for each of the sixteen hex digits, and every entry drives
      seven segments with 0 or 1. */
  lemma TablesWellFormed()
    ensures |SegLeft| == 16 && |SegRight| == 16
    ensures forall d | 0 <= d < 16 :: IsPattern(SegLeft[d]) && IsPattern(SegRight[d])
  {
  }

  /** The outcome of `set_beacon_num`: the calls made to the IO expander, and whether an
      exception left the method (after being logged). */
  datatype BeaconOutcome = BeaconOutcome(calls: seq<(Pattern, Pattern)>, raised: bool)

  /** `set_beacon_num(n)`. A negative number renders with a leading `-`, which `int(_, 16)`
      rejects, so the call raises before the expander is driven. Otherwise the expander is
      driven exactly once; below 256 with the patterns of the two hex digits of `n`. */
  function SetBeaconNum(n: int): (r: BeaconOutcome)
    ensures r.raised <==> n < 0
    ensures r.raised ==> r.calls == []
    ensures !r.raised ==> |r.calls| == 1
  {
    var text := Format02(n);
    match DigitValue(text[0])
    case None => BeaconOutcome([], true)
    case Some(left) =>
      match DigitValue(text[1])
      case None => BeaconOutcome([], true)
      case Some(right) => BeaconOutcome([(SegLeft[left], SegRight[right])], false)
  }

  /** Below 256 the left digit shows `n / 16` and the right digit `n % 16`. */
  lemma ByteShowsBothDigits(n: int)
    requires 0 <= n < 256
    ensures SetBeaconNum(n).calls == [(SegLeft[n / 16], SegRight[n % 16])]
  {
    Format02Byte(n);
    HexCharRoundTrip(n / 16);
    HexCharRoundTrip(n % 16);
  }

  /** From 256 on only the two leading hex digits are shown: the display reads
      `n / 16^(k-2)` for a rendering of `k` digits (256, rendered "100", shows 1 and 0). */
  lemma WideNumberShowsLeadingDigits(n: int)
    requires n >= 256
    ensures var v := n / Pow16(|Format02(n)| - 2);
            && 16 <= v < 256
            && SetBeaconNum(n).calls == [(SegLeft[v / 16], SegRight[v % 16])]
  {
    Format02Wide(n);
    var v := n / Pow16(|Format02(n)| - 2);
    HexCharRoundTrip(v / 16);
    HexCharRoundTrip(v % 16);
    assert Format02(n)[0] == Format02(n)[..2][0];
    assert Format02(n)[1] == Format02(n)[..2][1];
  }

  /** The pattern read as a 7-bit number, first segment most significant. */
  function SegmentCode(p: Pattern): int
    requires |p| == 7
  {
    p[0] * 64 + p[1] * 32 + p[2] * 16 + p[3] * 8 + p[4] * 4 + p[5] * 2 + p[6]
  }

  /** Which hex digit a left-hand pattern shows, if any. */
  function LeftDigit(p: Pattern): Option<nat>
    requires |p| == 7
  {
    match SegmentCode(p)
    case 4 => Some(0)
    case 31 => Some(1)
    case 66 => Some(2)
    case 18 => Some(3)
    case 25 => Some(4)
    case 48 => Some(5)
    case 32 => Some(6)
    case 28 => Some(7)
    case 0 => Some(8)
    case 24 => Some(9)
    case 8 => Some(10)
    case 33 => Some(11)
    case 100 => Some(12)
    case 3 => Some(13)
    case 96 => Some(14)
    case 104 => Some(15)
    case _ => None
  }

  /** Which hex digit a right-hand pattern shows, if any. */
  function RightDigit(p: Pattern): Option<nat>
    requires |p| == 7
  {
    match SegmentCode(p)
    case 1 => Some(0)
    case 109 => Some(1)
    case 24 => Some(2)
    case 40 => Some(3)
    case 100 => Some(4)
    case 34 => Some(5)
    case 2 => Some(6)
    case 37 => Some(7)
    case 0 => Some(8)
    case 36 => Some(9)
    case 4 => Some(10)
    case 66 => Some(11)
    case 19 => Some(12)
    case 72 => Some(13)
    case 18 => Some(14)
    case 22 => Some(15)
    case _ => None
  }

  /** Reading each table's pattern back gives its index, so within each table the sixteen
      patterns are pairwise distinct. */
  lemma DigitsReadBack(d: nat)
    requires d < 16
    ensures |SegLeft[d]| == 7 && LeftDigit(SegLeft[d]) == Some(d)
    ensures |SegRight[d]| == 7 && RightDigit(SegRight[d]) == Some(d)
  {
  }

  lemma PatternsDistinct(i: nat, j: nat)
    requires i < 16 && j < 16 && i != j
    ensures SegLeft[i] != SegLeft[j]
    ensures SegRight[i] != SegRight[j]
  {
    DigitsReadBack(i);
    DigitsReadBack(j);
  }

  /** What the two-digit display shows, read as one number. */
  function ReadDisplay(left: Pattern, right: Pattern): Option<nat>
    requires |left| == 7 && |right| == 7
  {
    match (LeftDigit(left), RightDigit(right))
    case (Some(l), Some(r)) => Some(16 * l + r)
    case _ => None
  }

  /** For 0..255 the display shows the number that was set, so distinct numbers drive
      distinct pattern pairs. */
  lemma DisplayRoundTrip(n: int)
    requires 0 <= n < 256
    ensures |SetBeaconNum(n).calls| == 1
    ensures |SetBeaconNum(n).calls[0].0| == 7 && |SetBeaconNum(n).calls[0].1| == 7
    ensures ReadDisplay(SetBeaconNum(n).calls[0].0, SetBeaconNum(n).calls[0].1) == Some(n)
  {
    ByteShowsBothDigits(n);
    DigitsReadBack(n / 16);
    DigitsReadBack(n % 16);
  }

  lemma BeaconInjective(n: int, m: int)
    requires 0 <= n < 256 && 0 <= m < 256
    requires SetBeaconNum(n).calls == SetBeaconNum(m).calls
    ensures n == m
  {
    DisplayRoundTrip(n);
    DisplayRoundTrip(m);
  }
}

=== FILE: common.dfy ===
/** Shared vocabulary: an optional value and the byte type the EEPROM images are made of. */
module Common {

  /** A value that may be missing. */
  datatype Option<+T> = None | Some(value: T)

  /** An unsigned 8-bit value, as read from an EEPROM. */
  type Byte = x: int | 0 <= x < 256

  function Min(a: int, b: int): int {
    if a <= b then a else b
  }

  /** No element of `s` occurs twice. */
  predicate NoDuplicates<T(==)>(s: seq<T>) {
    forall i, j | 0 <= i < j < |s| :: s[i] != s[j]
  }
}

=== FILE: field_decode.dfy ===
/** Extraction of bytes, words and strings from a fetched page, and the conversions of raw
    register words into physical units. Python's float results are kept as exact reals. */
module FieldDecode {
  import opened Common
  import opened Numeric
  import opened Hex
  import opened PageCache

  /** A numeric slot: a value, or the `"n/a"` the source stores when parsing fails. */
  datatype Reading = Value(x: real) | NotAvailable

  /** One call of the `READ_BYTE` pipeline with two bytes and `"%02x"` (`HexdumpHex`),
      parsed by `int(_, 16)`: the big-endian word at byte `a` of the page. A word with a byte
      missing at the end of the page is treated as missing (`None`); hexdump would print
      the one byte present. */
  function BlockWord(b: Block, a: nat): (w: Option<nat>)
    ensures w.Some? <==> a + 2 <= |b|
    ensures w.Some? ==> w.value < 0x1_0000 && w.value / 256 == b[a] && w.value % 256 == b[a + 1]
  {
    if a + 2 <= |b| then Some(b[a] as int * 256 + b[a + 1]) else None
  }

  /** What one `READ_BYTE` call prints with `count` bytes and the conversion `02x`: the
      format is `count/1 "%02x"`, `count` units of ONE byte each, so every byte from `a`
      is printed as two hex digits in file order, until `count` bytes or the page end. */
  function HexdumpHex(b: Block, a: nat, count: nat): (s: string)
    ensures AllHex(s)
    decreases count
  {
    if count == 0 || |b| <= a then ""
    else
      var rest := HexdumpHex(b, a + 1, count - 1);
      ValueOfConcat(Format02(b[a]), rest);
      Format02(b[a]) + rest
  }

  /** The two bytes of a word print high byte first, so `int(_, 16)` of the text is the
      big-endian word `BlockWord` reads. */
  lemma HexdumpWordBigEndian(b: Block, a: nat)
    requires a + 2 <= |b|
    ensures ValueOf(HexdumpHex(b, a, 2)) == BlockWord(b, a).value
  {
    var hi, lo := Format02(b[a]), Format02(b[a + 1]);
    Format02Byte(b[a]);
    Format02Byte(b[a + 1]);
    Format02RoundTrip(b[a]);
    Format02RoundTrip(b[a + 1]);
    assert HexdumpHex(b, a + 1, 1) == lo + "" == lo;
    ValueOfConcat(hi, lo);
    assert Pow16(2) == 256;
  }

  /** What one `READ_BYTE` call prints with `count` bytes and the conversion `c`: the
      format is `count/1 "%c"`, one character per byte from `a`. */
  function HexdumpChars(b: Block, a: nat, count: nat): string
    decreases count
  {
    if count == 0 || |b| <= a then ""
    else [b[a] as char] + HexdumpChars(b, a + 1, count - 1)
  }

  /** The per-byte `%c` output is the slice `ReadAscii` takes. */
  lemma {:induction false} HexdumpCharsIsReadAscii(b: Block, a: nat, count: nat)
    ensures HexdumpChars(b, a, count) == ReadAscii(b, a, count)
    decreases count
  {
    if count > 0 && a < |b| {
      HexdumpCharsIsReadAscii(b, a + 1, count - 1);
      var r := ReadAscii(b, a, count);
      var t := ReadAscii(b, a + 1, count - 1);
      assert r == [b[a] as char] + t by {
        assert |r| == 1 + |t|;
        forall i | 0 <= i < |r|
          ensures r[i] == ([b[a] as char] + t)[i]
        {
          if i > 0 {
            assert t[i - 1] as int == b[a + 1 + i - 1];
          }
        }
      }
    }
  }

  /** `_read_page_word(page, offset, repeat)`: the words at `offset`, `offset + 2`, … */
  function ReadWords(b: Block, offset: nat, repeat: nat): seq<Option<nat>> {
    seq(repeat, i requires 0 <= i < repeat => BlockWord(b, offset + 2 * i))
  }

  /** `_read_page_byte(page, offset)`: the byte rendered as two lower-case hex digits, or
      nothing when the page is too short. */
  function ReadByteHex(b: Block, a: nat): string {
    if a < |b| then Format02(b[a]) else ""
  }

  /** `_read_page_ascii(page, offset, length)`: the characters of up to `length` bytes from
      `offset`, fewer where the page ends; hexdump's `length/1 "%c"` output
      (`HexdumpChars`). */
  function ReadAscii(b: Block, a: nat, length: nat): (s: string)
    ensures |s| == if |b| <= a then 0 else Min(length, |b| - a)
    ensures forall i | 0 <= i < |s| :: s[i] as int == b[a + i]
  {
    if |b| <= a then ""
    else seq(Min(length, |b| - a), i requires 0 <= i < Min(length, |b| - a) => b[a + i] as char)
  }

  /** `_twos_comp(int(raw, 16), 16) / 256`: degrees Celsius in `[-128, 128)`, in steps of
      1/256. Scaling back and wrapping negatives recovers the register word. */
  function Temperature(w: Option<nat>): (r: Reading)
    requires w.Some? ==> w.value < 0x1_0000
    ensures r.NotAvailable? <==> w.None?
    ensures r.Value? ==> -128.0 <= r.x < 128.0
    ensures r.Value? ==> r.x * 256.0 == TwosComp(w.value, 16) as real
    ensures r.Value? ==> TemperatureRegister(r.x) == w.value
  {
    match w
    case None => NotAvailable
    case Some(v) =>
      Pow2Word();
      Value(TwosComp(v, 16) as real / 256.0)
  }

  /** The register word that encodes a temperature: the inverse of `Temperature`. */
  function TemperatureRegister(x: real): int {
    var n := (x * 256.0).Floor;
    if n < 0 then n + 0x1_0000 else n
  }

  /** `int(raw, 16) / 10000`, used for the supply voltage (V) and for RX/TX optical power
      (mW): from 0 to 6.5535 in steps of 1/10000. */
  function Tenthousandths(w: Option<nat>): (r: Reading)
    requires w.Some? ==> w.value < 0x1_0000
    ensures r.NotAvailable? <==> w.None?
    ensures r.Value? ==> 0.0 <= r.x <= 6.5535
    ensures r.Value? ==> r.x * 10000.0 == w.value as real
  {
    match w
    case None => NotAvailable
    case Some(v) => Value(v as real / 10000.0)
  }

  /** `int(raw, 16) * 0.002`: TX bias in mA, from 0 to 131.07 in steps of 0.002. */
  function Bias(w: Option<nat>): (r: Reading)
    requires w.Some? ==> w.value < 0x1_0000
    ensures r.NotAvailable? <==> w.None?
    ensures r.Value? ==> 0.0 <= r.x <= 131.07
    ensures r.Value? ==> r.x * 500.0 == w.value as real
  {
    match w
    case None => NotAvailable
    case Some(v) => Value(v as real * 0.002)
  }
}

=== FILE: hex.dfy ===
/** Hexadecimal rendering and parsing of integers, as Python's `'{:02x}'.format(n)` and
    `int(s, 16)` perform them. Both the beacon display and the transceiver revision byte
    go through this rendering. */
module Hex {
  import opened Common
  import opened Numeric

  function Pow16(n: nat): (r: nat)
    ensures r >= 1
  {
    if n == 0 then 1 else 16 * Pow16(n - 1)
  }

  /** The lower-case digit Python's `x` format emits for `d`. */
  function HexChar(d: nat): char
    requires d < 16
  {
    if d < 10 then ('0' as int + d) as char else ('a' as int + d - 10) as char
  }

  /** The ASCII characters `int(_, 16)` accepts as a digit (Python also accepts
      non-ASCII decimal digits, which `'{:02x}'` never produces). */
  predicate IsHexChar(c: char) {
    ('0' <= c <= '9') || ('a' <= c <= 'f') || ('A' <= c <= 'F')
  }

  /** `int(c, 16)` on a one-character ASCII string: the digit's value, or nothing where
      Python raises `ValueError` (for instance on `"-"`). */
  function DigitValue(c: char): (r: Option<nat>)
    ensures r.Some? <==> IsHexChar(c)
    ensures r.Some? ==> r.value < 16
  {
    if '0' <= c <= '9' then Some(c as int - '0' as int)
    else if 'a' <= c <= 'f' then Some(c as int - 'a' as int + 10)
    else if 'A' <= c <= 'F' then Some(c as int - 'A' as int + 10)
    else None
  }

  /** Parsing a rendered digit gives the digit back. */
  lemma HexCharRoundTrip(d: nat)
    requires d < 16
    ensures IsHexChar(HexChar(d))
    ensures DigitValue(HexChar(d)) == Some(d)
  {
  }

  /** Digits render in the order of their values: `'0' < … < '9' < 'a' < … < 'f'`. */
  lemma HexCharMonotone(d: nat, e: nat)
    requires d < e < 16
    ensures HexChar(d) < HexChar(e)
  {
  }

  predicate AllHex(s: string) {
    forall i | 0 <= i < |s| :: IsHexChar(s[i])
  }

  /** Only the digits Python's `x` format emits. */
  predicate AllLowerHex(s: string) {
    forall i | 0 <= i < |s| :: ('0' <= s[i] <= '9') || ('a' <= s[i] <= 'f')
  }

  /** The value of a run of hex digits (0 for the empty run), most significant first. */
  function ValueOf(s: string): nat
    requires AllHex(s)
  {
    if |s| == 0 then 0
    else ValueOf(s[..|s| - 1]) * 16 + DigitValue(s[|s| - 1]).value
  }

  /** The minimal lower-case hexadecimal rendering of `n` (`"0"` for zero). */
  function HexDigits(n: nat): (s: string)
    ensures |s| >= 1
    ensures AllHex(s) && AllLowerHex(s)
  {
    if n < 16 then [HexChar(n)] else HexDigits(n / 16) + [HexChar(n % 16)]
  }

  /** Parsing the rendering of `n` gives `n` back. */
  lemma {:induction false} HexDigitsRoundTrip(n: nat)
    ensures ValueOf(HexDigits(n)) == n
  {
    var s := HexDigits(n);
    if n < 16 {
      HexCharRoundTrip(n);
      assert s[..0] == [];
    } else {
      HexDigitsRoundTrip(n / 16);
      HexCharRoundTrip(n % 16);
      assert s[..|s| - 1] == HexDigits(n / 16);
    }
  }

  /** The rendering has no leading zero, and exactly two digits for `16 <= n < 256`
      and at least three from 256 on. */
  lemma {:induction false} HexDigitsLength(n: nat)
    ensures n > 0 ==> HexDigits(n)[0] != '0'
    ensures 16 <= n < 256 ==> HexDigits(n) == [HexChar(n / 16), HexChar(n % 16)]
    ensures n >= 256 <==> |HexDigits(n)| >= 3
  {
    if n >= 16 {
      HexDigitsLength(n / 16);
      assert HexDigits(n)[0] == HexDigits(n / 16)[0];
    } else if n > 0 {
      HexCharMonotone(0, n);
    }
  }

  /** Splitting a run of digits splits its value positionally. */
  lemma {:induction false} ValueOfConcat(a: string, b: string)
    requires AllHex(a) && AllHex(b)
    ensures AllHex(a + b)
    ensures ValueOf(a + b) == ValueOf(a) * Pow16(|b|) + ValueOf(b)
  {
    if |b| == 0 {
      assert a + b == a;
    } else {
      var b' := b[..|b| - 1];
      var ab := a + b;
      assert ab[..|ab| - 1] == a + b';
      assert ab[|ab| - 1] == b[|b| - 1];
      assert b[..|b| - 1] == b';
      ValueOfConcat(a, b');
      var d := DigitValue(b[|b| - 1]).value;
      assert ValueOf(ab) == ValueOf(a + b') * 16 + d;
      assert ValueOf(b) == ValueOf(b') * 16 + d;
      Shift(ValueOf(a), Pow16(|b'|), ValueOf(b'), d);
      assert Pow16(|b|) == Pow16(|b'|) * 16;
    }
  }

  lemma Shift(x: int, p: int, y: int, d: int)
    ensures (x * p + y) * 16 + d == x * (p * 16) + (y * 16 + d)
  {
  }

  /** A run of `k` digits is worth less than `16^k`. */
  lemma {:induction false} ValueOfBound(s: string)
    requires AllHex(s)
    ensures ValueOf(s) < Pow16(|s|)
  {
    if |s| > 0 {
      var s' := s[..|s| - 1];
      ValueOfBound(s');
      assert ValueOf(s) <= (Pow16(|s'|) - 1) * 16 + 15;
    }
  }

  /** `'{:02x}'.format(n)`: at least two digits, zero-padded; a negative number keeps its
      sign in front of the digits of its magnitude. */
  function Format02(n: int): (s: string)
    ensures |s| >= 2
    ensures s[0] == '-' <==> n < 0
    ensures n >= 0 ==> AllHex(s)
  {
    HexCharRoundTrip(0);
    if n < 0 then "-" + HexDigits(-n)
    else if n < 16 then [HexChar(0)] + HexDigits(n)
    else (HexDigitsLength(n); HexDigits(n))
  }

  /** `int(s, 16)` for the strings `Format02` produces: an optional `-` and then digits. */
  function ParseSigned(s: string): Option<int> {
    if |s| > 0 && s[0] == '-' then
      if |s| > 1 && AllHex(s[1..]) then Some(-(ValueOf(s[1..]) as int)) else None
    else if |s| > 0 && AllHex(s) then Some(ValueOf(s))
    else None
  }

  /** Python's `int(_, 16)` reads back what `'{:02x}'` wrote. */
  lemma Format02RoundTrip(n: int)
    ensures ParseSigned(Format02(n)) == Some(n)
  {
    var s := Format02(n);
    if n < 0 {
      assert s[1..] == HexDigits(-n);
      HexDigitsRoundTrip(-n);
    } else if n < 16 {
      HexCharRoundTrip(0);
      ValueOfConcat([HexChar(0)], HexDigits(n));
      HexDigitsRoundTrip(n);
      assert [HexChar(0)][..0] == [];
    } else {
      HexDigitsRoundTrip(n);
    }
  }

  /** Below 256 the rendering is exactly the two digits `n / 16` and `n % 16`. */
  lemma Format02Byte(n: int)
    requires 0 <= n < 256
    ensures Format02(n) == [HexChar(n / 16), HexChar(n % 16)]
  {
    HexDigitsLength(n);
  }

  /** The first two of `k` digits spell the value divided by `16^(k-2)`. */
  lemma LeadingPair(s: string)
    requires AllHex(s) && |s| >= 2
    ensures ValueOf(s[..2]) == ValueOf(s) / Pow16(|s| - 2)
  {
    var a, b := s[..2], s[2..];
    assert a + b == s;
    ValueOfConcat(a, b);
    ValueOfBound(b);
    DivUnique(ValueOf(s), ValueOf(a), ValueOf(b), Pow16(|b|));
  }

  /** Two lower-case digits are the rendering of their value's high and low nibble. */
  lemma TwoDigits(a: string)
    requires |a| == 2 && AllLowerHex(a)
    ensures AllHex(a)
    ensures ValueOf(a) < 256
    ensures a == [HexChar(ValueOf(a) / 16), HexChar(ValueOf(a) % 16)]
    ensures a[0] != '0' ==> ValueOf(a) >= 16
  {
    var d0, d1 := DigitValue(a[0]).value, DigitValue(a[1]).value;
    var a1 := a[..1];
    assert a1[..0] == [];
    assert a1[0] == a[0];
    assert ValueOf(a1) == d0;
    assert ValueOf(a) == d0 * 16 + d1;
    DigitInverse(a[0]);
    DigitInverse(a[1]);
  }

  /** From 256 on the rendering has more than two digits; its first two digits spell
      `n / 16^(k-2)` for `k` digits, a number in `[16, 256)`. */
  lemma Format02Wide(n: int)
    requires n >= 256
    ensures |Format02(n)| >= 3
    ensures 16 <= n / Pow16(|Format02(n)| - 2) < 256
    ensures Format02(n)[..2] == [HexChar(n / Pow16(|Format02(n)| - 2) / 16),
                                 HexChar(n / Pow16(|Format02(n)| - 2) % 16)]
  {
    var s := HexDigits(n);
    HexDigitsLength(n);
    assert Format02(n) == s;
    HexDigitsRoundTrip(n);
    LeadingPair(s);
    var a := s[..2];
    assert a[0] == s[0];
    TwoDigits(a);
  }

  /** A lower-case digit is the rendering of its value. */
  lemma DigitInverse(c: char)
    requires ('0' <= c <= '9') || ('a' <= c <= 'f')
    ensures HexChar(DigitValue(c).value) == c
  {
  }
}

=== FILE: module_decode.dfy ===
/** `get_qsfp_info` and `get_qsfpdd_info`: resolve the port's bus, check that an EEPROM
    device is registered there, fetch page 0, pick the register table (by revision for
    QSFP-DD), fetch the table's pages once each, and decode every field. The sysfs tree is
    represented by the map `Devices` from a bus to the bytes of the `eeprom` file registered
    on it; a bus outside the map has no such file. */
module ModuleDecode {
  import opened Common
  import opened Text
  import opened Hex
  import opened Addressing
  import opened RegisterMap
  import opened PageCache
  import opened FieldDecode

  /** The dictionary both functions return; `rev` and `tx_pwr` exist only for QSFP-DD. */
  datatype ModuleInfo = ModuleInfo(rev: Option<string>, temp: Reading, volt: Reading,
                                   vendor: string, sn: string, rxPwr: seq<Reading>,
                                   txBias: seq<Reading>, txPwr: Option<seq<Reading>>)

  /** `NotRegistered`: the sysfs path does not exist and the source returns `None` after
      logging. `InvalidBoard`: the QSFP-DD wiring is unknown and the source calls
      `sys.exit`. */
  datatype Outcome = Found(info: ModuleInfo) | NotRegistered | InvalidBoard

  type Devices = map<Bus, Eeprom>

  /** Channel `i` of a word field read straight off the EEPROM file: the big-endian word at
      byte `128 * page + offset + 2 * i`, or nothing when the 128-byte block or the file
      ends first. */
  function WordAt(e: Eeprom, reg: Reg, i: nat): (w: Option<nat>)
    ensures w.Some? ==> w.value < 0x1_0000
  {
    var a := reg.offset + 2 * i;
    var base := reg.page * BlockSize;
    if a + 2 <= BlockSize && base + a + 2 <= |e| then Some(e[base + a] as int * 256 + e[base + a + 1])
    else None
  }

  /** A 16-character field read straight off the EEPROM file, cut short where the block or
      the file ends. */
  function AsciiAt(e: Eeprom, reg: Reg): string {
    var lo := reg.page * BlockSize + reg.offset;
    if BlockSize <= reg.offset || |e| <= lo then ""
    else
      var n := Min(Min(AsciiLength, BlockSize - reg.offset), |e| - lo);
      seq(n, i requires 0 <= i < n => e[lo + i] as char)
  }

  /** The rendered revision byte: byte 1 of the file as two hex digits, or empty when the
      file is shorter. */
  function RevisionAt(e: Eeprom): string {
    if 2 <= |e| then Format02(e[RevOffset]) else ""
  }

  /** Every field of `info` is what the device holds at that field's address under table
      `t`, converted, each slot on its own: a missing word makes only its slot `"n/a"`. */
  ghost predicate Describes(info: ModuleInfo, t: RegTable, fam: Family, e: Eeprom) {
    && info.temp == Temperature(WordAt(e, t.temp, 0))
    && info.volt == Tenthousandths(WordAt(e, t.volt, 0))
    && info.vendor == Strip(AsciiAt(e, t.vendor))
    && info.sn == Strip(AsciiAt(e, t.sn))
    && |info.rxPwr| == fam.chlMax
    && (forall i | 0 <= i < fam.chlMax :: info.rxPwr[i] == Tenthousandths(WordAt(e, t.rxPwr, i)))
    && |info.txBias| == fam.chlMax
    && (forall i | 0 <= i < fam.chlMax :: info.txBias[i] == Bias(WordAt(e, t.txBias, i)))
    && (info.txPwr.Some? <==> t.txPwr.Some?)
    && (t.txPwr.Some? ==> |info.txPwr.value| == fam.chlMax)
    && (t.txPwr.Some? ==> forall i | 0 <= i < fam.chlMax ::
          info.txPwr.value[i] == Tenthousandths(WordAt(e, t.txPwr.value, i)))
  }

  /** The read log starts with page 0, reads no page twice and reads exactly `wanted`. */
  ghost predicate ReadsEachOnce(log: seq<nat>, wanted: set<nat>) {
    && |log| > 0 && log[0] == 0
    && NoDuplicates(log)
    && (forall p :: p in log <==> p in wanted)
  }

  /** A word taken from a fetched block is the word at that address of the device. */
  lemma WordFromBlock(e: Eeprom, reg: Reg, i: nat)
    ensures BlockWord(ReadBlock(e, reg.page), reg.offset + 2 * i) == WordAt(e, reg, i)
  {
  }

  /** A string taken from a fetched block is the string at that address of the device. */
  lemma AsciiFromBlock(e: Eeprom, reg: Reg)
    ensures ReadAscii(ReadBlock(e, reg.page), reg.offset, AsciiLength) == AsciiAt(e, reg)
  {
  }

  /** The two conversions applied to per-channel words. */
  datatype Conversion = ToTenthousandths | ToBias

  function Convert(c: Conversion, w: Option<nat>): Reading
    requires w.Some? ==> w.value < 0x1_0000
  {
    match c
    case ToTenthousandths => Tenthousandths(w)
    case ToBias => Bias(w)
  }

  /** The per-channel readings of one word field: the loop over `range(CHL_MAX)`. */
  function Channels(b: Block, offset: nat, count: nat, c: Conversion): seq<Reading> {
    var words := ReadWords(b, offset, count);
    seq(count, i requires 0 <= i < count => Convert(c, words[i]))
  }

  /** The channels taken from a fetched block are the converted words of the device. */
  lemma ChannelsFromBlock(e: Eeprom, reg: Reg, count: nat, c: Conversion)
    ensures |Channels(ReadBlock(e, reg.page), reg.offset, count, c)| == count
    ensures forall i | 0 <= i < count ::
              Channels(ReadBlock(e, reg.page), reg.offset, count, c)[i] == Convert(c, WordAt(e, reg, i))
  {
    forall i | 0 <= i < count
      ensures Channels(ReadBlock(e, reg.page), reg.offset, count, c)[i] == Convert(c, WordAt(e, reg, i))
    {
      WordFromBlock(e, reg, i);
    }
  }

  /** The decoding half of `get_qsfp_info` / `get_qsfpdd_info` over the fetched pages:
      read each field from the page its table entry names and convert it. */
  function DecodePages(t: RegTable, fam: Family, pages: Pages): ModuleInfo
    requires forall p | p in TablePages(t) :: p < |pages| && pages[p].Some?
    requires WellFormed(t, fam)
  {
    FieldsFit(t, fam);
    var temp := ReadWords(pages[t.temp.page].value, t.temp.offset, 1);
    var volt := ReadWords(pages[t.volt.page].value, t.volt.offset, 1);
    var vendor := ReadAscii(pages[t.vendor.page].value, t.vendor.offset, AsciiLength);
    var sn := ReadAscii(pages[t.sn.page].value, t.sn.offset, AsciiLength);
    ModuleInfo(
      None,
      Temperature(temp[0]),
      Tenthousandths(volt[0]),
      Strip(vendor),
      Strip(sn),
      Channels(pages[t.rxPwr.page].value, t.rxPwr.offset, fam.chlMax, ToTenthousandths),
      Channels(pages[t.txBias.page].value, t.txBias.offset, fam.chlMax, ToBias),
      if t.txPwr.Some? then
        Some(Channels(pages[t.txPwr.value.page].value, t.txPwr.value.offset, fam.chlMax,
                      ToTenthousandths))
      else None)
  }

  /** Decoding the cached pages gives what the device holds at each field's address. */
  lemma DecodeFromCache(e: Eeprom, pages: Pages, t: RegTable, fam: Family)
    requires WellFormed(t, fam)
    requires forall p | p in TablePages(t) :: p < |pages| && pages[p] == Some(ReadBlock(e, p))
    ensures Describes(DecodePages(t, fam, pages), t, fam, e)
  {
    FieldsFit(t, fam);
    var info := DecodePages(t, fam, pages);
    ScalarsFromCache(e, pages, t, fam, info);
    StringsFromCache(e, pages, t, fam, info);
    ChannelsFromCache(e, pages, t, fam, info);
  }

  lemma ScalarsFromCache(e: Eeprom, pages: Pages, t: RegTable, fam: Family, info: ModuleInfo)
    requires WellFormed(t, fam)
    requires forall p | p in TablePages(t) :: p < |pages| && pages[p] == Some(ReadBlock(e, p))
    requires info == DecodePages(t, fam, pages)
    ensures info.temp == Temperature(WordAt(e, t.temp, 0))
    ensures info.volt == Tenthousandths(WordAt(e, t.volt, 0))
  {
    FieldsFit(t, fam);
    assert pages[t.temp.page].value == ReadBlock(e, t.temp.page);
    assert pages[t.volt.page].value == ReadBlock(e, t.volt.page);
    FirstWordAt(e, t.temp);
    FirstWordAt(e, t.volt);
  }

  /** A single-word field taken from a fetched block is the word at that address. */
  lemma FirstWordAt(e: Eeprom, reg: Reg)
    ensures ReadWords(ReadBlock(e, reg.page), reg.offset, 1)[0] == WordAt(e, reg, 0)
  {
    WordFromBlock(e, reg, 0);
  }

  lemma StringsFromCache(e: Eeprom, pages: Pages, t: RegTable, fam: Family, info: ModuleInfo)
    requires WellFormed(t, fam)
    requires forall p | p in TablePages(t) :: p < |pages| && pages[p] == Some(ReadBlock(e, p))
    requires info == DecodePages(t, fam, pages)
    ensures info.vendor == Strip(AsciiAt(e, t.vendor))
    ensures info.sn == Strip(AsciiAt(e, t.sn))
  {
    FieldsFit(t, fam);
    assert pages[t.vendor.page].value == ReadBlock(e, t.vendor.page);
    assert pages[t.sn.page].value == ReadBlock(e, t.sn.page);
    AsciiFromBlock(e, t.vendor);
    AsciiFromBlock(e, t.sn);
  }

  lemma ChannelsFromCache(e: Eeprom, pages: Pages, t: RegTable, fam: Family, info: ModuleInfo)
    requires WellFormed(t, fam)
    requires forall p | p in TablePages(t) :: p < |pages| && pages[p] == Some(ReadBlock(e, p))
    requires info == DecodePages(t, fam, pages)
    ensures |info.rxPwr| == fam.chlMax
    ensures forall i | 0 <= i < fam.chlMax :: info.rxPwr[i] == Tenthousandths(WordAt(e, t.rxPwr, i))
    ensures |info.txBias| == fam.chlMax
    ensures forall i | 0 <= i < fam.chlMax :: info.txBias[i] == Bias(WordAt(e, t.txBias, i))
    ensures info.txPwr.Some? <==> t.txPwr.Some?
    ensures t.txPwr.Some? ==> |info.txPwr.value| == fam.chlMax
    ensures t.txPwr.Some? ==> forall i | 0 <= i < fam.chlMax ::
              info.txPwr.value[i] == Tenthousandths(WordAt(e, t.txPwr.value, i))
  {
    FieldsFit(t, fam);
    assert pages[t.rxPwr.page].value == ReadBlock(e, t.rxPwr.page);
    assert pages[t.txBias.page].value == ReadBlock(e, t.txBias.page);
    ChannelsFromBlock(e, t.rxPwr, fam.chlMax, ToTenthousandths);
    ChannelsFromBlock(e, t.txBias, fam.chlMax, ToBias);
    if t.txPwr.Some? {
      assert pages[t.txPwr.value.page].value == ReadBlock(e, t.txPwr.value.page);
      ChannelsFromBlock(e, t.txPwr.value, fam.chlMax, ToTenthousandths);
    }
  }

  /** `get_qsfp_info(port)`. Without a registered EEPROM nothing is read and the result is
      `None`; otherwise page 0 and then every page of the SFF-8436 table are read once
      each, and every field is decoded from the device. */
  method GetQsfpInfo(port: int, devices: Devices) returns (r: Outcome, ghost log: seq<nat>)
    ensures r.NotRegistered? <==> QsfpBus(port) !in devices
    ensures r.NotRegistered? ==> log == []
    ensures !r.InvalidBoard?
    ensures r.Found? ==> r.info.rev.None?
    ensures r.Found? ==> Describes(r.info, Sff8436(), QsfpFamily, devices[QsfpBus(port)])
    ensures r.Found? ==> ReadsEachOnce(log, {0} + TablePages(Sff8436()))
  {
    var bus := QsfpBus(port);
    if bus !in devices {
      return NotRegistered, [];
    }
    var e := devices[bus];
    var t := Sff8436();
    FieldsFit(t, QsfpFamily);
    var pages;
    pages, log := OpenCache(e, QsfpFamily.pageSize);
    ghost var log0 := log;
    pages, log := FetchTablePages(e, t, pages, log);
    assert log[0] == log0[0];
    DecodeFromCache(e, pages, t, QsfpFamily);
    r := Found(DecodePages(t, QsfpFamily, pages));
  }

  /** The revision byte as `_read_page_byte` renders it from the cached page 0. */
  lemma RevisionFromCache(e: Eeprom, pages: Pages, log: seq<nat>)
    requires Faithful(e, pages, log)
    requires |pages| > 0 && pages[0].Some?
    ensures ReadByteHex(pages[0].value, RevOffset) == RevisionAt(e)
  {
  }

  /** `get_qsfpdd_info(port)`. An unknown board ends the program before anything is read;
      without a registered EEPROM nothing is read and the result is `None`; otherwise page 0
      is read, its revision byte picks the 2.0 or 3.0 table and the "x.y" label, every page
      of that table is read once, and every field is decoded from the device. */
  method GetQsfpddInfo(port: int, boardId: nat, ids: BoardIds, devices: Devices)
    returns (r: Outcome, ghost log: seq<nat>)
    ensures r.InvalidBoard? <==> QsfpddBus(boardId, ids, port).None?
    ensures r.NotRegistered? <==>
              QsfpddBus(boardId, ids, port).Some? && QsfpddBus(boardId, ids, port).value !in devices
    ensures !r.Found? ==> log == []
    ensures r.Found? ==>
              var e := devices[QsfpddBus(boardId, ids, port).value];
              var t := CmisTable(SelectCmis(RevisionAt(e)));
              && r.info.rev == Some(RevisionLabel(RevisionAt(e)))
              && Describes(r.info, t, QsfpddFamily, e)
              && ReadsEachOnce(log, {0} + TablePages(t))
  {
    var bus := QsfpddBus(boardId, ids, port);
    if bus.None? {
      return InvalidBoard, [];
    }
    if bus.value !in devices {
      return NotRegistered, [];
    }
    var e := devices[bus.value];
    var pages;
    pages, log := OpenCache(e, QsfpddFamily.pageSize);
    var rawRev := ReadByteHex(pages[0].value, RevOffset);
    RevisionFromCache(e, pages, log);
    var t := CmisTable(SelectCmis(rawRev));
    FieldsFit(t, QsfpddFamily);
    ghost var log0 := log;
    pages, log := FetchTablePages(e, t, pages, log);
    assert log[0] == log0[0];
    DecodeFromCache(e, pages, t, QsfpddFamily);
    var info := DecodePages(t, QsfpddFamily, pages);
    r := Found(info.(rev := Some(RevisionLabel(rawRev))));
  }
}

=== FILE: numeric.dfy ===
/** Integer helpers that spell out Python's arithmetic where it differs from Dafny's. */
module Numeric {

  function Pow2(n: nat): (r: nat)
    ensures r >= 1
  {
    if n == 0 then 1 else 2 * Pow2(n - 1)
  }

  /** The powers a 16-bit two's-complement word is read with. */
  lemma Pow2Word()
    ensures Pow2(15) == 0x8000 && Pow2(16) == 0x1_0000
  {
    assert Pow2(1) == 2 && Pow2(2) == 4 && Pow2(3) == 8 && Pow2(4) == 16;
    assert Pow2(5) == 32 && Pow2(6) == 64 && Pow2(7) == 128 && Pow2(8) == 256;
    assert Pow2(9) == 512 && Pow2(10) == 1024 && Pow2(11) == 2048 && Pow2(12) == 4096;
    assert Pow2(13) == 8192 && Pow2(14) == 16384;
  }

  /** Python's `int(a / d)` for a positive divisor: true division followed by
      truncation toward zero (Dafny's `/` rounds toward minus infinity for negative `a`). */
  function TruncDiv(a: int, d: nat): (q: int)
    requires d > 0
    ensures 0 <= a ==> 0 <= q * d <= a < (q + 1) * d
    ensures a < 0 ==> (q - 1) * d < a <= q * d <= 0
  {
    if a >= 0 then
      DivBounds(a, d);
      MulShift(a / d, d);
      a / d
    else
      DivBounds(-a, d);
      MulShift(-((-a) / d), d);
      -((-a) / d)
  }

  lemma DivBounds(n: nat, d: nat)
    requires d > 0
    ensures 0 <= (n / d) * d <= n < (n / d) * d + d
  {
  }

  lemma MulShift(q: int, d: int)
    ensures (q + 1) * d == q * d + d && (q - 1) * d == q * d - d
    ensures q * d == -((-q) * d)
  {
  }

  /** Division is determined by a quotient and remainder in range. */
  lemma DivUnique(n: nat, q: nat, r: nat, d: nat)
    requires 0 <= r < d
    requires n == q * d + r
    ensures n / d == q
  {
    var q', r' := n / d, n % d;
    assert n == q' * d + r';
    if q' < q {
      var k := q - q';
      MulSplit(q', k, d);
      MulAtLeast(k, d);
    } else if q' > q {
      var k := q' - q;
      MulSplit(q, k, d);
      MulAtLeast(k, d);
    }
  }

  lemma MulSplit(a: nat, k: nat, d: nat)
    ensures (a + k) * d == a * d + k * d
  {
  }

  lemma {:induction false} MulAtLeast(k: nat, d: nat)
    requires k >= 1
    ensures k * d >= d
  {
    if k > 1 {
      MulAtLeast(k - 1, d);
      MulSplit(k - 1, 1, d);
    }
  }

  /** Bit `k` of the non-negative integer `v` is set. */
  predicate BitSet(v: nat, k: nat) {
    (v / Pow2(k)) % 2 == 1
  }

  /** Within `[0, 2^bits)` the top bit is set exactly on the upper half. */
  lemma TopBit(v: nat, bits: nat)
    requires bits >= 1
    ensures v < Pow2(bits) ==> (BitSet(v, bits - 1) <==> v >= Pow2(bits - 1))
  {
    var h := Pow2(bits - 1);
    if v >= 2 * h {
    } else if v >= h {
      assert v / h == 1 by {
        assert 1 * h <= v < 2 * h;
      }
    } else {
      assert v / h == 0;
    }
  }

  /** `_twos_comp(val, bits)`: read the low `bits` bits of `val` as a two's-complement number.
      For `v` in `[0, 2^bits)` the result lies in `[-2^(bits-1), 2^(bits-1))`, and adding `2^bits`
      back to a negative result recovers the unsigned register value. */
  function TwosComp(v: nat, bits: nat): (r: int)
    requires bits >= 1
    ensures v < Pow2(bits) ==> -(Pow2(bits - 1) as int) <= r < Pow2(bits - 1)
    ensures v < Pow2(bits) ==> (r == v <==> v < Pow2(bits - 1))
    ensures v < Pow2(bits) ==> (r == v - Pow2(bits) <==> v >= Pow2(bits - 1))
    ensures v < Pow2(bits) ==> (if r < 0 then r + Pow2(bits) else r) == v
  {
    TopBit(v, bits);
    BitAndPow2(v, bits - 1);
    if BitAnd(v, Pow2(bits - 1)) != 0 then v - Pow2(bits) else v
  }

  /** Python's `a & b` on non-negative integers. */
  function BitAnd(a: nat, b: nat): nat {
    if a == 0 || b == 0 then 0
    else 2 * BitAnd(a / 2, b / 2) + (if a % 2 == 1 && b % 2 == 1 then 1 else 0)
  }

  /** Masking never yields more than the mask or the masked value. */
  lemma {:induction false} BitAndBounded(a: nat, b: nat)
    ensures BitAnd(a, b) <= a
    ensures BitAnd(a, b) <= b
  {
    if a != 0 && b != 0 {
      BitAndBounded(a / 2, b / 2);
    }
  }

  /** The source's bit test `v & (1 << k) != 0` is the bit `BitSet` reads, so `TopBit`
      and `TwosComp` decide the sign as `_twos_comp` does. */
  lemma {:induction false} BitAndPow2(v: nat, k: nat)
    ensures BitAnd(v, Pow2(k)) != 0 <==> BitSet(v, k)
  {
    if k == 0 {
      assert v / 1 == v;
    } else if v != 0 {
      BitAndPow2(v / 2, k - 1);
      HalveDiv(v, Pow2(k - 1));
    }
  }

  /** Halving first and then dividing by `p` is dividing by `2 p`. */
  lemma HalveDiv(v: nat, p: nat)
    requires p > 0
    ensures (v / 2) / p == v / (2 * p)
  {
    var q, r2, r1 := (v / 2) / p, (v / 2) % p, v % 2;
    assert v / 2 == q * p + r2;
    assert v == 2 * (v / 2) + r1;
    assert v == q * (2 * p) + (2 * r2 + r1) by {
      assert 2 * (q * p) == q * (2 * p);
    }
    DivUnique(v, q, 2 * r2 + r1, 2 * p);
  }
}

=== FILE: page_cache.dfy ===
/** The per-call page array of `get_qsfp_info` / `get_qsfpdd_info`. The shell pipeline
    that reads a block (`dd … | base64`) and extracts bytes from it (`base64 -d | hexdump`)
    is replaced by slicing the EEPROM image, so a page is simply a 128-byte block of it. */
module PageCache {
  import opened Common
  import opened RegisterMap

  /** The contents of a transceiver's sysfs `eeprom` file. */
  type Eeprom = seq<Byte>
  type Block = seq<Byte>

  /** `_read_page(path, p)`, i.e. `dd bs=128 count=1 skip=p`: block `p` of the file, short
      when the file ends inside it and empty when it ends before it. */
  function ReadBlock(e: Eeprom, p: nat): (b: Block)
    ensures |b| == if |e| <= p * BlockSize then 0 else Min(BlockSize, |e| - p * BlockSize)
    ensures forall i | 0 <= i < |b| :: b[i] == e[p * BlockSize + i]
  {
    if |e| <= p * BlockSize then []
    else e[p * BlockSize .. Min((p + 1) * BlockSize, |e|)]
  }

  /** `eeprom_pages`: `None` stands for the 0 the source stores for "not fetched yet". */
  type Pages = seq<Option<Block>>

  /** The page array agrees with the device and with the log of block reads: each block was
      read at most once, a page is present exactly when its block was read, and a present
      page holds that block of the device. */
  ghost predicate Faithful(e: Eeprom, pages: Pages, log: seq<nat>) {
    && NoDuplicates(log)
    && (forall k | 0 <= k < |log| :: log[k] < |pages|)
    && (forall p | 0 <= p < |pages| :: pages[p].Some? <==> p in log)
    && (forall p | 0 <= p < |pages| && pages[p].Some? :: pages[p].value == ReadBlock(e, p))
  }

  /** `eeprom_pages = [0] * PAGE_SIZE` followed by `eeprom_pages[0] = _read_page(path, 0)`:
      page 0 is the first and so far only block read. */
  method OpenCache(e: Eeprom, pageSize: nat) returns (pages: Pages, ghost log: seq<nat>)
    requires pageSize >= 1
    ensures |pages| == pageSize && log == [0]
    ensures pages[0] == Some(ReadBlock(e, 0))
    ensures forall p | 1 <= p < pageSize :: pages[p].None?
    ensures Faithful(e, pages, log)
  {
    pages := seq(pageSize, p => None)[0 := Some(ReadBlock(e, 0))];
    log := [0];
  }

  /** The loop over `reg.items()`: every page the table names is read unless it is already
      present. Afterwards the log holds the earlier reads followed by one read of each
      newly named page, and nothing else. */
  method FetchTablePages(e: Eeprom, t: RegTable, pages: Pages, ghost log: seq<nat>)
    returns (pages': Pages, ghost log': seq<nat>)
    requires Faithful(e, pages, log)
    requires forall k | 0 <= k < |Items(t)| :: Items(t)[k].1.page < |pages|
    ensures |pages'| == |pages|
    ensures Faithful(e, pages', log')
    ensures |log| <= |log'| && log'[..|log|] == log
    ensures forall p :: p in log' <==> p in log || p in TablePages(t)
  {
    var items := Items(t);
    pages', log' := pages, log;
    for k := 0 to |items|
      invariant |pages'| == |pages|
      invariant Faithful(e, pages', log')
      invariant |log| <= |log'| && log'[..|log|] == log
      invariant forall p :: p in log' <==> p in log || exists j | 0 <= j < k :: items[j].1.page == p
    {
      var page := items[k].1.page;
      if pages'[page].None? {
        pages' := pages'[page := Some(ReadBlock(e, page))];
        log' := log' + [page];
      }
    }
  }
}

=== FILE: register_map.dfy ===
/** The static register tables (`QSFPReg`, `QSFPDDReg`) and the QSFP-DD revision
    dispatch. The page-fetch loop walks a table's dictionary items, so their written order
    is kept (`Items`). Page numbers are indices of
    128-byte blocks of the EEPROM file, exactly as written in the tables. */
module RegisterMap {
  import opened Common
  import opened Hex
  import opened Text

  datatype Field = Rev | Temp | Volt | Vendor | Sn | TxPwr | TxBias | RxPwr

  /** A `[PAGE, ADDR]` entry: block index and byte offset inside the block. */
  datatype Reg = Reg(page: nat, offset: nat)

  /** The per-family constants `CHL_MAX` and `PAGE_SIZE`. */
  datatype Family = Family(chlMax: nat, pageSize: nat)

  /** The block size of every page read (`dd bs=128`). */
  const BlockSize: nat := 128
  /** Vendor name and serial number are read as 16 characters. */
  const AsciiLength: nat := 16
  /** Offset of the revision byte in page 0 (`QSFPDDReg["30"]["REV"][1]`). */
  const RevOffset: nat := 1

  const QsfpFamily: Family := Family(4, 5)
  const QsfpddFamily: Family := Family(8, 257)

  /** A register table, one slot per dictionary key. The revision byte and the TX power
      words exist only in the QSFP-DD maps. */
  datatype RegTable = RegTable(rev: Option<Reg>, temp: Reg, volt: Reg, vendor: Reg, sn: Reg,
                               txPwr: Option<Reg>, txBias: Reg, rxPwr: Reg)

  /** The table's `items()` in the order the source writes them: REV (QSFP-DD only), TEMP,
      VOLT, VENDOR, SN, TX_PWR (QSFP-DD only), TX_BIAS, RX_PWR. */
  function Items(t: RegTable): seq<(Field, Reg)> {
    (if t.rev.Some? then [(Rev, t.rev.value)] else [])
    + [(Temp, t.temp), (Volt, t.volt), (Vendor, t.vendor), (Sn, t.sn)]
    + (if t.txPwr.Some? then [(TxPwr, t.txPwr.value)] else [])
    + [(TxBias, t.txBias), (RxPwr, t.rxPwr)]
  }

  /** The set of pages a table names. */
  function TablePages(t: RegTable): set<nat> {
    set k | 0 <= k < |Items(t)| :: Items(t)[k].1.page
  }

  /** The bytes a field occupies from its offset on: one for the revision byte, one word for
      temperature and voltage, sixteen characters for the strings, a word per channel for
      the per-channel readings. */
  function Width(f: Field, fam: Family): nat {
    match f
    case Rev => 1
    case Temp | Volt => 2
    case Vendor | Sn => AsciiLength
    case TxPwr | TxBias | RxPwr => 2 * fam.chlMax
  }

  /** A table fit for a family: every page it names is below `PAGE_SIZE`, so it indexes the
      page array, and every field lies inside one 128-byte block. */
  ghost predicate WellFormed(t: RegTable, fam: Family) {
    forall k | 0 <= k < |Items(t)| ::
      && Items(t)[k].1.page < fam.pageSize
      && Items(t)[k].1.offset + Width(Items(t)[k].0, fam) <= BlockSize
  }

  /** Where each field sits among the items: the optional revision first, then TEMP, VOLT,
      VENDOR, SN, the optional TX power, TX_BIAS and RX_PWR. */
  lemma ItemsLayout(t: RegTable)
    ensures var o := if t.rev.Some? then 1 else 0;
            var q := o + 4 + (if t.txPwr.Some? then 1 else 0);
            && |Items(t)| == q + 2
            && (t.rev.Some? ==> Items(t)[0] == (Rev, t.rev.value))
            && Items(t)[o] == (Temp, t.temp)
            && Items(t)[o + 1] == (Volt, t.volt)
            && Items(t)[o + 2] == (Vendor, t.vendor)
            && Items(t)[o + 3] == (Sn, t.sn)
            && (t.txPwr.Some? ==> Items(t)[o + 4] == (TxPwr, t.txPwr.value))
            && Items(t)[q] == (TxBias, t.txBias)
            && Items(t)[q + 1] == (RxPwr, t.rxPwr)
  {
  }

  /** In a well-formed table every field's page is among the pages the table names and
      below `PAGE_SIZE`, and every field fits in its block. */
  lemma FieldsFit(t: RegTable, fam: Family)
    requires WellFormed(t, fam)
    ensures t.temp.page in TablePages(t) && t.temp.page < fam.pageSize && t.temp.offset + 2 <= BlockSize
    ensures t.volt.page in TablePages(t) && t.volt.page < fam.pageSize && t.volt.offset + 2 <= BlockSize
    ensures t.vendor.page in TablePages(t) && t.vendor.page < fam.pageSize
    ensures t.vendor.offset + AsciiLength <= BlockSize
    ensures t.sn.page in TablePages(t) && t.sn.page < fam.pageSize
    ensures t.sn.offset + AsciiLength <= BlockSize
    ensures t.txBias.page in TablePages(t) && t.txBias.page < fam.pageSize
    ensures t.txBias.offset + 2 * fam.chlMax <= BlockSize
    ensures t.rxPwr.page in TablePages(t) && t.rxPwr.page < fam.pageSize
    ensures t.rxPwr.offset + 2 * fam.chlMax <= BlockSize
    ensures t.txPwr.Some? ==> t.txPwr.value.page in TablePages(t)
    ensures t.txPwr.Some? ==> t.txPwr.value.page < fam.pageSize
    ensures t.txPwr.Some? ==> t.txPwr.value.offset + 2 * fam.chlMax <= BlockSize
    ensures t.rev.Some? ==> t.rev.value.page in TablePages(t) && t.rev.value.page < fam.pageSize
    ensures forall p | p in TablePages(t) :: p < fam.pageSize
  {
    ItemsLayout(t);
    var o := if t.rev.Some? then 1 else 0;
    var q := o + 4 + (if t.txPwr.Some? then 1 else 0);
    assert Items(t)[o].1 == t.temp;
    assert Items(t)[o + 1].1 == t.volt;
    assert Items(t)[o + 2].1 == t.vendor;
    assert Items(t)[o + 3].1 == t.sn;
    assert Items(t)[q].1 == t.txBias;
    assert Items(t)[q + 1].1 == t.rxPwr;
    if t.txPwr.Some? {
      assert Items(t)[o + 4].1 == t.txPwr.value;
    }
    if t.rev.Some? {
      assert Items(t)[0].1 == t.rev.value;
    }
  }

  /** `QSFPReg["SFF8436"]`. */
  function Sff8436(): (t: RegTable)
    ensures WellFormed(t, QsfpFamily)
    ensures t.rev.None? && t.txPwr.None?
    ensures TablePages(t) == {0, 1}
  {
    var t := RegTable(None, Reg(0, 22), Reg(0, 26), Reg(1, 20), Reg(1, 68), None,
                      Reg(0, 42), Reg(0, 34));
    assert Items(t)[0].1.page == 0 && Items(t)[2].1.page == 1;
    t
  }

  /** The two QSFP-DD register maps, keyed "20" and "30" in the source. */
  datatype CmisRev = Rev20 | Rev30

  /** `QSFPDDReg["20"]` and `QSFPDDReg["30"]`. */
  function CmisTable(rev: CmisRev): (t: RegTable)
    ensures WellFormed(t, QsfpddFamily)
    ensures t.rev == Some(Reg(0, RevOffset)) && t.txPwr.Some?
    ensures TablePages(t) == (if rev == Rev20 then {0, 1} else {0, 1, 18})
  {
    match rev
    case Rev20 =>
      var t := RegTable(Some(Reg(0, 1)), Reg(0, 26), Reg(0, 30), Reg(1, 20), Reg(1, 68),
                        Some(Reg(0, 64)), Reg(0, 48), Reg(0, 32));
      assert Items(t)[0].1.page == 0 && Items(t)[3].1.page == 1;
      t
    case Rev30 =>
      var t := RegTable(Some(Reg(0, 1)), Reg(0, 14), Reg(0, 16), Reg(1, 1), Reg(1, 38),
                        Some(Reg(18, 26)), Reg(18, 42), Reg(18, 58));
      assert Items(t)[0].1.page == 0 && Items(t)[3].1.page == 1 && Items(t)[5].1.page == 18;
      t
  }

  /** `raw_rev > "20"`: the revision-3.0 map is chosen by comparing the rendered revision
      byte with `"20"` as strings. */
  function SelectCmis(rawRev: string): CmisRev {
    if Less("20", rawRev) then Rev30 else Rev20
  }

  /** For a revision byte rendered with `"02x"`, the string comparison agrees with the
      numeric one: the 3.0 map is chosen exactly for bytes above 0x20. When page 0 has no
      revision byte the rendering is empty and the 2.0 map is chosen. */
  lemma SelectCmisNumeric(b: Byte)
    ensures SelectCmis(Format02(b)) == Rev30 <==> b > 0x20
    ensures SelectCmis("") == Rev20
  {
    Format02Byte(b);
    var hi, lo := b / 16, b % 16;
    if hi < 2 {
      HexCharMonotone(hi, 2);
    } else if hi > 2 {
      HexCharMonotone(2, hi);
    } else {
      assert Format02(b) == ['2', HexChar(lo)];
      assert "20"[1..] == "0" && ['2', HexChar(lo)][1..] == [HexChar(lo)];
      if lo > 0 {
        HexCharMonotone(0, lo);
        assert HexChar(0) == '0';
        assert Less("0", [HexChar(lo)]);
      }
    }
  }

  /** `raw_rev[:1] + "." + raw_rev[1:]`: a dot after the first character. */
  function RevisionLabel(raw: string): (shown: string)
    ensures |shown| == |raw| + 1
    ensures shown[Min(1, |raw|)] == '.'
    ensures shown[..Min(1, |raw|)] + shown[Min(1, |raw|) + 1..] == raw
  {
    var k := Min(1, |raw|);
    var shown := raw[..k] + "." + raw[k..];
    assert shown[..k] == raw[..k];
    assert shown[k + 1..] == raw[k..];
    shown
  }

  /** A rendered revision byte is labelled "<high digit>.<low digit>", e.g. 0x30 gives "3.0". */
  lemma RevisionLabelOfByte(b: Byte)
    ensures RevisionLabel(Format02(b)) == [HexChar(b / 16), '.', HexChar(b % 16)]
  {
    Format02Byte(b);
  }
}

=== FILE: text.dfy ===
/** Python's `str` ordering and `str.strip()`, on strings of Unicode characters. */
module Text {

  /** Python's `a < b` on `str`: compare code points pairwise; at the first difference the
      smaller character decides, and a proper prefix is smaller than the longer string. */
  predicate Less(a: string, b: string) {
    if |a| == 0 then |b| > 0
    else if |b| == 0 then false
    else if a[0] == b[0] then Less(a[1..], b[1..])
    else a[0] < b[0]
  }

  /** The textbook definition of lexicographic order, by the first index where the
      strings differ. */
  ghost predicate LessAt(a: string, b: string) {
    (|a| < |b| && a == b[..|a|])
    || exists k | 0 <= k < |a| && k < |b| :: a[..k] == b[..k] && a[k] < b[k]
  }

  /** `Less` is exactly the first-difference order. */
  lemma {:induction false} LessIsLexicographic(a: string, b: string)
    ensures Less(a, b) <==> LessAt(a, b)
  {
    if |a| == 0 {
      if |b| == 0 {
        assert !LessAt(a, b);
      } else {
        assert a == b[..|a|];
      }
    } else if |b| == 0 {
      assert !LessAt(a, b);
    } else if a[0] != b[0] {
      if a[0] < b[0] {
        assert a[..0] == b[..0];
      } else {
        assert !(|a| < |b| && a == b[..|a|]);
      }
    } else {
      var a', b' := a[1..], b[1..];
      LessIsLexicographic(a', b');
      if LessAt(a', b') {
        if |a'| < |b'| && a' == b'[..|a'|] {
          assert a == b[..|a|];
        } else {
          var k :| 0 <= k < |a'| && k < |b'| && a'[..k] == b'[..k] && a'[k] < b'[k];
          assert a[..k + 1] == [a[0]] + a'[..k];
          assert b[..k + 1] == [b[0]] + b'[..k];
        }
      }
      if LessAt(a, b) {
        if |a| < |b| && a == b[..|a|] {
          assert a' == b'[..|a'|];
        } else {
          var k :| 0 <= k < |a| && k < |b| && a[..k] == b[..k] && a[k] < b[k];
          assert k > 0;
          assert a'[..k - 1] == a[..k][1..];
          assert b'[..k - 1] == b[..k][1..];
          assert a'[k - 1] == a[k];
        }
      }
    }
  }

  /** Python's `str.isspace()` for one character. */
  predicate IsSpace(c: char) {
    var k := c as int;
    (9 <= k <= 13) || (28 <= k <= 32) || k == 0x85 || k == 0xA0 || k == 0x1680
    || (0x2000 <= k <= 0x200A) || k == 0x2028 || k == 0x2029 || k == 0x202F
    || k == 0x205F || k == 0x3000
  }

  predicate AllSpace(s: string) {
    forall k | 0 <= k < |s| :: IsSpace(s[k])
  }

  /** `str.lstrip()`: the suffix left after dropping leading whitespace. */
  function StripStart(s: string): (r: string)
    ensures |r| <= |s| && r == s[|s| - |r|..]
    ensures AllSpace(s[..|s| - |r|])
    ensures |r| > 0 ==> !IsSpace(r[0])
  {
    if |s| > 0 && IsSpace(s[0]) then
      var r := StripStart(s[1..]);
      assert s[1..][|s| - 1 - |r|..] == s[|s| - |r|..];
      assert forall k | 1 <= k < |s| - |r| :: s[k] == s[1..][..|s| - 1 - |r|][k - 1];
      r
    else s
  }

  /** `str.rstrip()`: the prefix left after dropping trailing whitespace. */
  function StripEnd(s: string): (r: string)
    ensures |r| <= |s| && r == s[..|r|]
    ensures AllSpace(s[|r|..])
    ensures |r| > 0 ==> !IsSpace(r[|r| - 1])
  {
    if |s| > 0 && IsSpace(s[|s| - 1]) then
      var r := StripEnd(s[..|s| - 1]);
      assert s[..|s| - 1][..|r|] == s[..|r|];
      assert forall k | |r| <= k < |s| - 1 :: s[k] == s[..|s| - 1][|r|..][k - |r|];
      r
    else s
  }

  /** `str.strip()`: the piece of `s` left between its leading and trailing whitespace.
      Only whitespace is removed, and what remains neither starts nor ends with it. */
  function Strip(s: string): (r: string)
    ensures |r| <= |s|
    ensures |r| > 0 ==> !IsSpace(r[0]) && !IsSpace(r[|r| - 1])
    ensures exists i | 0 <= i <= |s| - |r| ::
              && r == s[i..i + |r|]
              && AllSpace(s[..i])
              && AllSpace(s[i + |r|..])
    ensures |r| == 0 <==> AllSpace(s)
  {
    var t := StripStart(s);
    var r := StripEnd(t);
    StripBoth(s, t, r);
    r
  }

  lemma StripBoth(s: string, t: string, r: string)
    requires |t| <= |s| && t == s[|s| - |t|..] && AllSpace(s[..|s| - |t|])
    requires |t| > 0 ==> !IsSpace(t[0])
    requires |r| <= |t| && r == t[..|r|] && AllSpace(t[|r|..])
    ensures r == s[|s| - |t|..|s| - |t| + |r|]
    ensures AllSpace(s[|s| - |t| + |r|..])
    ensures |r| == 0 <==> AllSpace(s)
  {
    var i := |s| - |t|;
    assert s[i + |r|..] == t[|r|..];
    if |r| > 0 {
      assert s[i] == r[0];
    } else {
      assert s[..i] + t == s;
      AllSpaceJoin(s[..i], t);
    }
  }

  /** A non-empty piece of `s` with only whitespace around it and none at its two ends. */
  predicate IsCore(s: string, i: nat, r: string) {
    && i + |r| <= |s| && r == s[i..i + |r|]
    && AllSpace(s[..i]) && AllSpace(s[i + |r|..])
    && |r| > 0 && !IsSpace(r[0]) && !IsSpace(r[|r| - 1])
  }

  /** `strip` is determined by its result's shape: any non-empty piece of `s` with only
      whitespace around it and none at its two ends is what `strip` returns. */
  lemma StripUnique(s: string, i: nat, r: string)
    requires IsCore(s, i, r)
    ensures Strip(s) == r
  {
    assert s[i] == r[0];
    var t := StripStart(s);
    StripIsCore(s, t, StripEnd(t));
    CoreUnique(s, i, r, |s| - |t|, StripEnd(t));
  }

  /** Unless `s` is all whitespace, `rstrip` after `lstrip` leaves such a piece, starting
      where `lstrip` stopped (stated over the two steps' contracts). */
  lemma StripIsCore(s: string, t: string, q: string)
    requires !AllSpace(s)
    requires |t| <= |s| && t == s[|s| - |t|..] && AllSpace(s[..|s| - |t|])
    requires |t| > 0 ==> !IsSpace(t[0])
    requires |q| <= |t| && q == t[..|q|] && AllSpace(t[|q|..])
    requires |q| > 0 ==> !IsSpace(q[|q| - 1])
    ensures IsCore(s, |s| - |t|, q)
  {
    StripBoth(s, t, q);
    assert q[0] == t[0];
  }

  /** Two such pieces coincide: each one's first and last characters lie outside the
      other's whitespace. */
  lemma CoreUnique(s: string, i: nat, r: string, j: nat, q: string)
    requires IsCore(s, i, r) && IsCore(s, j, q)
    ensures r == q
  {
    assert s[i] == r[0] && s[j] == q[0];
    var k := i + |r| - 1;
    var m := j + |q| - 1;
    assert s[k] == r[|r| - 1] && s[m] == q[|q| - 1];
  }

  lemma AllSpaceJoin(a: string, b: string)
    requires AllSpace(a) && AllSpace(b)
    ensures AllSpace(a + b)
  {
    assert forall k | |a| <= k < |a + b| :: (a + b)[k] == b[k - |a|];
  }
}
